=== FILE: README.md ===
# bte-testharness: the bookkeeping around the queries, in Dafny

The harness runs Translator test cases against one component, here the
Biothings Explorer. It has three pieces of bookkeeping around the network
calls, and this project models them as pure state-transition functions:

- **Query deduplication and merge** (`QueryRunner.run_queries` and
  `run_query`). Each test case's CURIE normalisations are merged into the
  runner's cache. Every asset's input id is rewritten through the cache, and
  the assets collapse into one query per distinct asset hash; the first asset
  with a hash wins. One task is sent per query. The tasks' triples
  `(hash, responses, pks)` are then merged back, each into its own entry.
- **Verdict routing** (`run_tests`). Tests without assets or without an
  objective are skipped. Every other test is dispatched. For an acceptance
  test, each asset with a supported expected output and a retrieved
  response gets one report per agent. A status code above 299 is FAILED
  with `Status code: N`; any other response goes to the classifier. The
  Biothings Explorer verdict moves exactly one run-level counter, and the
  report goes to the collector. A quantitative test changes nothing, and
  any other objective adds one to FAILED.
- **Result aggregation** (`ResultCollector`). The constructor seeds an
  agent × query type × result type table with zeros and writes a fixed
  CSV header. `collect_result` bumps at most one existing cell per agent and
  never creates one. It logs an error where the cell is missing, and it
  appends exactly one CSV line.

The asynchronous fan-out (`asyncio.gather` with `return_exceptions=True`)
is a sequence of task outcomes in task order, folded in that order. The
collaborators the core calls but does not define are fields of the datatype
`Types.Env`, as uninterpreted functions: `normalize_curies`,
`hash_test_asset`, `generate_query`, `get_tag`, `pass_fail_analysis` and
the HTTP POST. The POST's outcome is read from an oracle indexed by the
run-wide number of the POST. The oracle says whether the POST raised, the
reply's status, and whether its JSON body decoded.

A Python exception that escapes is a `Failure(Fault)` that ends the run.
These are a `KeyError` from a normalisation lookup, and the faults of
`response["response"]["message"]["results"]`: a `KeyError` for a missing
`message` or `results`, and a `TypeError` when the body or its `message` is
not a JSON object. The decoded body is modelled only as deep as that lookup
reads it (`Types.ResponseBody`). A task that raises is an outcome inside
the gather. A
Python `dict` whose insertion order is observable (an agent's `responses`)
is an association list (`OrderedDict.Dict`), and so is the ordered table
`self.result_types` (`ResultCollector.ResultTypes`). `queries` is a Dafny map
with its insertion order kept beside it (`QueryRunner.QueryTable`). The
other dicts are Dafny maps.

Files: `wrappers.dfy` (Option, Result), `text.dfy` (`sep.join`, `str(int)`,
`s.split(sep)[1]`), `ordered_dict.dfy` (`dict.update` on an insertion-ordered
dict), `types.dfy` (records and `Env`), `query_runner.dfy`,
`result_collector.dfy`, `run.dfy`.

Two points where the code does something subtler than a first reading
suggests; the model follows the code:

- **The agent key.** `run_query` keys the response by the agent name after
  `"infores:"`, but it takes `infores.split("infores:")[1]`, which is not
  "everything after the first `infores:`": it stops at a second
  `"infores:"` when there is one. `QueryRunner.AgentKey` is that split. For an ordinary
  CURIE `infores:<name>` the two readings agree (`QueryRunner.AgentKeyOfCurie`).
- **Normalised assets.** `run_queries` rewrites `input_id` on the test's own
  asset objects. So the asset loop of `run_tests` hashes the normalised
  assets and hands them to the collector. The model routes the normalised
  assets returned by `QueryRunner.RunQueries` for the same reason.

## Model

| member | source | states |
|---|---|---|
| QueryRunner.MergeNormalizations | runner/query_runner.py:69 | `normalized_curies.update(...)`: every earlier key stays, every new key is present, a re-normalised key takes the new value, an untouched key keeps the old one |
| QueryRunner.NormalizeAssets | runner/query_runner.py:73-74 | succeeds exactly when every asset's input id is a cache key; then asset i is asset i with its input id replaced by the cache's value, and nothing else differs; otherwise the fault is a KeyError naming the first missing id |
| QueryRunner.AddAsset | runner/query_runner.py:76-84 | a hash not seen yet gets a new entry with the generated query and empty responses and pks, appended to the insertion order; a hash already present leaves the order and every entry untouched; the table stays well formed |
| QueryRunner.BuildQueries | runner/query_runner.py:72-84 | the key set of `queries` is exactly the set of asset hashes, its size is at most the number of assets, insertion order has no duplicates, and every entry starts with empty responses and pks |
| QueryRunner.BuildQueriesOrderLength | runner/query_runner.py:72-84 | `queries` has exactly one key per asset that is the first to carry its hash |
| QueryRunner.BuildQueriesOrder | runner/query_runner.py:76-84 | insertion order is order of first appearance: the hash of the first asset carrying it sits at the position equal to the number of first-with-hash assets before that asset |
| QueryRunner.BuildQueriesFirstSeen | runner/query_runner.py:77-84 | first seen wins: the query under a hash is generated from the first asset with that hash |
| QueryRunner.AgentKey | runner/query_runner.py:51 | the split succeeds exactly when `infores` contains "infores:", and the key never contains "infores:" |
| QueryRunner.AgentKeyOfCurie | runner/query_runner.py:51 | for `infores:<name>` with no further "infores:", the key is exactly `<name>` |
| QueryRunner.RunQuery | runner/query_runner.py:31-58 | returns its own hash and empty pks; the responses have one key, the agent key; status 418 and an empty body when the POST raised; the reply's status is kept; the body only for a 2xx reply that decoded; IndexError exactly when the split fails |
| QueryRunner.Dispatch | runner/query_runner.py:88-104 | exactly one task per distinct hash, in insertion order, and task i reports hash i |
| QueryRunner.MergeOne | runner/query_runner.py:108-109 | one triple's merge: its entry's responses read the triple's value for each of its agents and keep every other agent's, its pks gain the triple's keys and values, its query stays, and every other entry is unchanged |
| QueryRunner.MergeResults | runner/query_runner.py:105-113 | the merge never changes the key set or order of `queries` nor any entry's query; an entry no returned triple names is unchanged |
| QueryRunner.MergeResultsKeeps | runner/query_runner.py:105-111 | merges done before the loop stops are kept: no entry loses an agent or a pk, and every triple before the first raising task or unknown hash has all its agents and pks in its entry at the end |
| QueryRunner.MergeIntoOwnEntries | runner/query_runner.py:105-111 | each triple is merged into its own, still empty, entry: up to the first task that raised, entry i holds exactly task i's responses and pks; later entries stay empty |
| QueryRunner.RunQueries | runner/query_runner.py:60-113 | raises exactly when some input id has no normalisation, with a KeyError for an id missing from the merged cache; otherwise returns the merged cache, the normalised assets and one entry per distinct hash, and uses one POST per entry |
| QueryRunner.RunQueriesOwnResponses | runner/query_runner.py:72-113 | after `run_queries`, entry i holds task i's responses if every earlier task returned normally, and is still empty otherwise |
| OrderedDict.Get | result_collector.py:49-51 | `d.get(k)` finds a value exactly when `k` is a key of `d`, and the value found is one stored under `k` |
| OrderedDict.Put | runner/query_runner.py:108 | `d[k] = v`: afterwards `k` reads `v`, every other key reads what it read before, and a new key goes last |
| OrderedDict.Update | runner/query_runner.py:108 | `dict.update`: every key of the argument reads its new value, other keys keep theirs |
| OrderedDict.UpdateDisjoint | runner/query_runner.py:108 | updating with keys not yet present appends them in order |
| Text.FindFrom | runner/query_runner.py:51 | the search inside `split`: the returned index is an occurrence at or after the start with none before it, and no result means no occurrence from the start on |
| Text.SplitSecond | runner/query_runner.py:51 | `s.split(sep)[1]` exists exactly when `sep` occurs; it is the piece of `s` after the first occurrence, up to the next occurrence or the end, and contains no `sep` |
| ResultCollector.NewCollector | result_collector.py:13-36 | every (agent, query type, result type) cell of the 1 × 4 × 4 table exists and is 0; the CSV is exactly the header line |
| ResultCollector.SeedRow | result_collector.py:28-32 | one agent's row holds exactly the four query types, each with every result type at 0 |
| ResultCollector.SeedCell | result_collector.py:30-32 | one query type's cell map holds exactly the values of `result_types`, each at 0 |
| Text.Join | result_collector.py:35 | `sep.join(parts)`: no parts give "", the first part leads, one part stands alone, and every character comes from a part or the separator |
| ResultCollector.HeaderLine | result_collector.py:34-36 | `",".join(columns)` is "name,TestCase,TestAsset,biothings-explorer" |
| ResultCollector.ResultTypeOf | result_collector.py:49-51 | PASSED, FAILED and "No results" map to themselves; "-" and any other tag map to "Test Error"; the result is always a seeded result type |
| ResultCollector.Bump | result_collector.py:56 | exactly the named cell grows by one; no cell is added or removed |
| ResultCollector.CollectStats | result_collector.py:46-60 | the table keeps its shape; an unknown query type leaves every count unchanged and logs one error per agent in the report; no error is logged exactly when every needed cell exists |
| ResultCollector.CollectStatsCounts | result_collector.py:46-56 | each cell grows by one exactly when it is the cell of an agent in the report, for the asset's query type and that agent's result type; all other cells are unchanged |
| ResultCollector.Tags | result_collector.py:63-65 | one tag per collector agent that is in the report; every such agent's `get_tag` value is among the tags, and every tag is the `get_tag` value of such an agent |
| ResultCollector.CsvRow | result_collector.py:62-66 | the appended line is the asset's name, the test id, the asset id and the Biothings Explorer tag (empty when that agent has no report), comma-separated and ending with a newline; it is a single line when no field holds a newline |
| ResultCollector.CollectResult | result_collector.py:38-66 | the table keeps its keys and only the reported agents' cells move, by one; a seeded table with a supported query type logs nothing, an unsupported one changes no count and logs; the CSV is the old CSV plus exactly one line |
| Run.Increment | run.py:92 | `full_report[status] += 1`: that counter grows by one, the others are unchanged, the total grows by one |
| Run.StatusFailure | run.py:63-70 | a status above 299 gives FAILED with message "Status code: " + the code; "Timed out" is never produced for an integer code |
| Run.StatusMessageNamesCode | run.py:68-70 | the message is "Status code: " followed by decimal digits that read back as the code |
| Text.NatToString | run.py:69 | `str(n)` is a non-empty string of decimal digits with no leading zero |
| Text.ParseNatToString | run.py:69 | `str(n)` of a non-negative integer reads back as `n` |
| Run.ResultsOf | run.py:82 | `body["message"]["results"]` succeeds exactly when the body is an object whose `message` is an object with `results`; KeyError('message') exactly when `message` is missing, KeyError('results') exactly when `results` is missing, TypeError exactly when the body or the message is not an object |
| Run.AgentVerdict | run.py:60-85 | a failed status gives the FAILED report without the classifier; otherwise the results lookup's fault comes first, then KeyError for an output id with no normalisation; on success the report is the classifier's, called on the agent's emptied entry |
| Run.AgentVerdicts | run.py:56-85 | every agent with a response gets a report, every other entry is kept; the loop succeeds exactly when every response can be routed |
| Run.AgentVerdictsFailedStatus | run.py:63-70 | an agent whose last response has a status above 299 ends with the FAILED report naming that status |
| Run.AgentVerdictsClassified | run.py:78-85 | for an entry with one response of status at most 299, the agent's report is `pass_fail_analysis` applied to the emptied entry, the answers, the normalised output id and the expected output |
| Run.RouteAsset | run.py:42-94 | an asset with an unsupported expected output, or whose hash has no entry, changes nothing; any other asset fails exactly when its verdicts fail, and otherwise moves the counter total by exactly one |
| Run.RouteAssetRecords | run.py:87-94 | a routed asset bumps the counter of the Biothings Explorer report's status, or SKIPPED when that agent has no report or its report no status, and calls `collect_result` once with the verdicts of its own entry |
| Run.RecordVerdicts | run.py:60-94 | a fault while forming verdicts ends the test; otherwise the Biothings Explorer status's counter (SKIPPED when absent) moves by one and the collector receives the verdicts |
| Run.Record | run.py:87-94 | the Biothings Explorer status's counter, or SKIPPED when that agent or its status is absent, moves by one; the collector is the result of `collect_result`, and the table stays seeded |
| Run.RouteAssets | run.py:42-94 | the asset loop keeps the counters' keys and the seeded table, only appends to the CSV, and, when every asset's hash has an entry, adds exactly the number of supported assets to the total |
| Run.SupportedCountNormalized | runner/query_runner.py:73-74 | rewriting input ids does not change which assets have a supported expected output |
| Run.Skipped | run.py:36 | a test runs exactly when it has at least one asset and a non-empty objective; an empty objective string skips the test like a missing one |
| Run.RunTest | run.py:33-100 | a skipped test changes nothing and sends no POST; otherwise `run_queries` runs with one POST per distinct hash, including assets later dropped as unsupported, its fault ends the run, and the counter total grows by the test's weight |
| Run.AfterQueries | run.py:40-100 | after dispatch: an acceptance test adds one count per supported asset, a quantitative test changes no counter and no row, any other objective adds exactly one to FAILED and no row |
| Run.Judge | run.py:41-100 | the per-objective branch: acceptance routes every asset, each of which finds its entry; quantitative returns the state as is; any other objective adds one to FAILED |
| Run.RunTests | run.py:16-110 | the counters always have exactly the keys PASSED, FAILED and SKIPPED, and start at 0; the table stays fully seeded; the CSV keeps its header; the total counts every supported asset of every acceptance test plus one per test of an unsupported objective |

## Left out

- `main.py`: command-line parsing, downloading the suite, logger and UUID set-up, and JSON output.
- The stats and CSV file writes in the test loop (run.py:102-108) and the `tqdm` progress bar. They do not change the state.
- Logging. The exception is `collect_result`'s error line, which is a counter in `ResultCollector.Collector`.
- httpx transport and timeouts, `MAX_QUERY_TIME`, `MAX_ARA_TIME`, `env_map` and the `concurrency` argument. The semaphore is created per task (runner/query_runner.py:92), so it bounds nothing. Tasks are folded in creation order.
- `normalize_curies`, `hash_test_asset`, `generate_query`, `get_tag`, `pass_fail_analysis` and the POST itself. They are defined elsewhere, and the model takes them as fields of `Types.Env`.
- Run.AgentVerdict: the report `pass_fail_analysis` returns has a status drawn from PASSED, FAILED and SKIPPED. A status outside that set would make `full_report[status]` raise, and that path is not modelled.
- QueryRunner.RunQuery: the request body and URL go to the POST oracle, not to the response.
- Run.ResultsOf: a JSON `null` for `results` is not told apart from a list (`Types.MessageField` has no case for it).
- The `pks` of a report (run.py:57) is never read after it is built, so the model drops it from the report. The task's `pks` is still merged.
- Run.RunTest: the per-objective facts are stated on `Run.AfterQueries` and `Run.Judge`. `Run.RunTest` itself carries only the resulting change in the counter total.
- Run.AgentVerdicts: the FAILED report for an agent whose status is above 299 is stated by the lemma `Run.AgentVerdictsFailedStatus`, and the classifier's report by `Run.AgentVerdictsClassified` for the one-response entries `run_queries` builds; neither is in the function's own contract.
- Text.Join: a join of two or more parts is pinned only through its one use, the header, by `ResultCollector.HeaderLine`; the CSV row's join has one part at most, because the collector has one agent.
- QueryRunner.MergeResults: that merged triples reach their entries is stated by `QueryRunner.MergeResultsKeeps` and `QueryRunner.MergeIntoOwnEntries`, not by the function's own contract.

=== FILE: ordered_dict.dfy ===
/** A Python `dict` with string keys as the harness uses it: an
    insertion-ordered list of (key, value) pairs whose keys are distinct.
    Only lookup, single-key assignment and `update` are needed. */
module OrderedDict {
  import opened Wrappers

  type Dict<V> = seq<(string, V)>

  predicate Distinct<T(==)>(s: seq<T>)
  {
    forall i, j | 0 <= i < j < |s| :: s[i] != s[j]
  }

  function KeysOf<V>(d: Dict<V>): (ks: seq<string>)
    ensures |ks| == |d| && forall i | 0 <= i < |d| :: ks[i] == d[i].0
  {
    seq(|d|, i requires 0 <= i < |d| => d[i].0)
  }

  /** A genuine dict: no key twice. */
  predicate WellFormed<V>(d: Dict<V>)
  {
    Distinct(KeysOf(d))
  }

  /** `d.get(k)` */
  function Get<V>(d: Dict<V>, k: string): (r: Option<V>)
    ensures r.Some? <==> k in KeysOf(d)
    ensures r.Some? ==> (k, r.value) in d
  {
    if |d| == 0 then None
    else if d[0].0 == k then Some(d[0].1)
    else
      assert KeysOf(d) == [d[0].0] + KeysOf(d[1..]);
      Get(d[1..], k)
  }

  /** `d[k] = v`: an existing key keeps its position, a new key goes last. */
  function Put<V>(d: Dict<V>, k: string, v: V): (r: Dict<V>)
    ensures Get(r, k) == Some(v)
    ensures forall k' | k' != k :: Get(r, k') == Get(d, k')
    ensures k !in KeysOf(d) ==> r == d + [(k, v)]
  {
    if |d| == 0 then [(k, v)]
    else if d[0].0 == k then [(k, v)] + d[1..]
    else
      assert KeysOf(d) == [d[0].0] + KeysOf(d[1..]);
      assert [d[0]] + (d[1..] + [(k, v)]) == d + [(k, v)];
      [d[0]] + Put(d[1..], k, v)
  }

  /** `d.update(e)`: every key of `e` takes its value from `e`, every other
      key keeps its value from `d`. */
  function Update<V>(d: Dict<V>, e: Dict<V>): (r: Dict<V>)
    ensures forall k | k !in KeysOf(e) :: Get(r, k) == Get(d, k)
    ensures WellFormed(e) ==> forall k | k in KeysOf(e) :: Get(r, k) == Get(e, k)
    ensures forall k | k in KeysOf(d) || k in KeysOf(e) :: k in KeysOf(r)
    decreases |e|
  {
    if |e| == 0 then d
    else
      assert KeysOf(e) == [e[0].0] + KeysOf(e[1..]);
      Update(Put(d, e[0].0, e[0].1), e[1..])
  }

  /** Updating a dict with keys disjoint from it appends the new pairs in
      order; in particular `{}.update(e)` is `e`. */
  lemma {:induction false} UpdateDisjoint<V>(d: Dict<V>, e: Dict<V>)
    requires WellFormed(d + e)
    ensures Update(d, e) == d + e
    decreases |e|
  {
    if |e| > 0 {
      var d' := d + [e[0]];
      assert d' + e[1..] == d + e;
      AppendNewKey(d, e);
      UpdateDisjoint(d', e[1..]);
    }
  }

  lemma AppendNewKey<V>(d: Dict<V>, e: Dict<V>)
    requires |e| > 0 && WellFormed(d + e)
    ensures Put(d, e[0].0, e[0].1) == d + [e[0]]
  {
    var ks := KeysOf(d + e);
    assert ks[|d|] == e[0].0;
    forall i | 0 <= i < |d| ensures KeysOf(d)[i] != e[0].0 {
      assert KeysOf(d)[i] == ks[i];
    }
  }
}

=== FILE: query_runner.dfy ===
/** `QueryRunner` (runner/query_runner.py): normalises a test case's input
    identifiers, collapses its assets into one query per distinct asset hash,
    dispatches one task per query and merges the task results back.
    The asynchronous fan-out is modelled as an ordered list of task outcomes,
    one per query, in the order `asyncio.gather` returns them. */
module QueryRunner {
  import opened Wrappers
  import opened OrderedDict
  import opened Text
  import opened Types

  const InforesPrefix := "infores:"

  /** The status code recorded when the POST raised before a reply arrived. */
  const UnassignedStatus := 418

  /** One value of the `queries` dict: `{"query", "responses", "pks"}`. */
  datatype QueryEntry = QueryEntry(
    query: Query,
    responses: Dict<AgentResponse>,
    pks: map<string, string>)

  /** The `queries` dict, `order` being its insertion order. */
  datatype QueryTable = QueryTable(order: seq<Hash>, entries: map<Hash, QueryEntry>)

  /** The triple `(query_hash, responses, pks)` a task returns. */
  datatype TaskResult = TaskResult(
    hash: Hash,
    responses: Dict<AgentResponse>,
    pks: map<string, string>)

  /** What `run_queries` hands back to the caller, together with the state of
      the runner it leaves behind (the cache and the number of POSTs made). */
  datatype Dispatched = Dispatched(
    cache: map<string, string>,
    assets: seq<TestAsset>,
    queries: QueryTable,
    posts: nat)

  ghost predicate Valid(t: QueryTable)
  {
    && Distinct(t.order)
    && |t.order| == |t.entries|
    && (forall i | 0 <= i < |t.order| :: t.order[i] in t.entries)
    && (forall h | h in t.entries :: h in t.order)
  }

  // ---------------------------------------------------------------------
  // Normalisation

  /** `self.normalized_curies.update(learnt)`: nothing learnt for an earlier
      test case is forgotten, and fresh answers overwrite stale ones. */
  function MergeNormalizations(cache: map<string, string>, learnt: map<string, string>)
    : (r: map<string, string>)
    ensures r.Keys == cache.Keys + learnt.Keys
    ensures forall id | id in learnt :: r[id] == learnt[id]
    ensures forall id | id in cache && id !in learnt :: r[id] == cache[id]
  {
    cache + learnt
  }

  /** `test_asset.input_id = self.normalized_curies[test_asset.input_id]` for
      every asset in order; the lookup raises KeyError at the first asset
      whose input identifier the cache does not know. */
  function NormalizeAssets(assets: seq<TestAsset>, cache: map<string, string>)
    : (r: Result<seq<TestAsset>, Fault>)
    ensures r.Success? <==> forall a | a in assets :: a.inputId in cache
    ensures r.Success? ==>
              && |r.value| == |assets|
              && forall i | 0 <= i < |assets| ::
                   r.value[i] == assets[i].(inputId := cache[assets[i].inputId])
    ensures r.Failure? ==>
              exists i | 0 <= i < |assets| ::
                && assets[i].inputId !in cache
                && r.error == KeyError(assets[i].inputId)
                && forall j | 0 <= j < i :: assets[j].inputId in cache
  {
    if |assets| == 0 then Success([])
    else if assets[0].inputId !in cache then Failure(KeyError(assets[0].inputId))
    else
      var rest :- NormalizeAssets(assets[1..], cache);
      assert forall a | a in assets[1..] :: a in assets;
      Success([assets[0].(inputId := cache[assets[0].inputId])] + rest)
  }

  // ---------------------------------------------------------------------
  // Deduplication

  ghost function Hashes(assets: seq<TestAsset>, env: Env): set<Hash>
  {
    set a | a in assets :: env.hash(a)
  }

  /** Asset `i` is the first one carrying its hash. */
  ghost predicate FirstWithHash(assets: seq<TestAsset>, i: nat, env: Env)
    requires i < |assets|
  {
    forall j | 0 <= j < i :: env.hash(assets[j]) != env.hash(assets[i])
  }

  /** One iteration of the asset loop: a query is generated only for a hash
      not seen before, with empty responses and pks; entries already present
      are left alone. */
  function AddAsset(t: QueryTable, a: TestAsset, env: Env): (r: QueryTable)
    requires Valid(t)
    ensures Valid(r)
    ensures r.entries.Keys == t.entries.Keys + {env.hash(a)}
    ensures forall h | h in t.entries :: r.entries[h] == t.entries[h]
    ensures env.hash(a) !in t.entries ==>
              r.entries[env.hash(a)] == QueryEntry(env.generate(a), [], map[])
    ensures env.hash(a) in t.entries ==> r.order == t.order
    ensures env.hash(a) !in t.entries ==> r.order == t.order + [env.hash(a)]
  {
    var h := env.hash(a);
    if h in t.entries then t
    else
      var r := QueryTable(t.order + [h], t.entries[h := QueryEntry(env.generate(a), [], map[])]);
      assert forall i | 0 <= i < |t.order| :: r.order[i] == t.order[i];
      r
  }

  /** The `queries` dict built from the (already normalised) assets. */
  function BuildQueries(assets: seq<TestAsset>, env: Env): (t: QueryTable)
    ensures Valid(t)
    ensures t.entries.Keys == Hashes(assets, env)
    ensures |t.entries| <= |assets|
    ensures forall h | h in t.entries :: t.entries[h].responses == [] && t.entries[h].pks == map[]
    decreases |assets|
  {
    if |assets| == 0 then QueryTable([], map[])
    else
      var prefix := assets[..|assets| - 1];
      var last := assets[|assets| - 1];
      var t := BuildQueries(prefix, env);
      HashesOfSnoc(assets, env);
      AddAsset(t, last, env)
  }

  /** First seen wins: the query stored under a hash is the one generated
      from the first asset carrying that hash; later assets with the same
      hash do not overwrite it. */
  lemma {:induction false} BuildQueriesFirstSeen(assets: seq<TestAsset>, env: Env)
    ensures forall i | 0 <= i < |assets| && FirstWithHash(assets, i, env) ::
              BuildQueries(assets, env).entries[env.hash(assets[i])].query == env.generate(assets[i])
    decreases |assets|
  {
    if |assets| > 0 {
      var prefix := assets[..|assets| - 1];
      var last := assets[|assets| - 1];
      var t := BuildQueries(prefix, env);
      var full := BuildQueries(assets, env);
      assert full == AddAsset(t, last, env);
      BuildQueriesFirstSeen(prefix, env);
      FirstSeenKept(assets, env);
      forall i | 0 <= i < |assets| && FirstWithHash(assets, i, env)
        ensures full.entries[env.hash(assets[i])].query == env.generate(assets[i])
      {
        if i < |assets| - 1 {
          assert prefix[i] == assets[i];
          assert FirstWithHash(prefix, i, env);
          assert t.entries[env.hash(prefix[i])].query == env.generate(prefix[i]);
        } else {
          assert env.hash(last) !in t.entries;
        }
      }
    }
  }

  lemma HashesOfSnoc(assets: seq<TestAsset>, env: Env)
    requires |assets| > 0
    ensures Hashes(assets, env) == Hashes(assets[..|assets| - 1], env) + {env.hash(assets[|assets| - 1])}
  {
    assert assets == assets[..|assets| - 1] + [assets[|assets| - 1]];
  }

  /** How many assets of the list are the first to carry their hash. */
  ghost function CountFirsts(assets: seq<TestAsset>, env: Env): nat
    decreases |assets|
  {
    if |assets| == 0 then 0
    else CountFirsts(assets[..|assets| - 1], env) + (if FirstWithHash(assets, |assets| - 1, env) then 1 else 0)
  }

  /** `queries` has one key per asset that is first with its hash. */
  lemma {:induction false} BuildQueriesOrderLength(assets: seq<TestAsset>, env: Env)
    ensures |BuildQueries(assets, env).order| == CountFirsts(assets, env)
    decreases |assets|
  {
    if |assets| > 0 {
      var prefix := assets[..|assets| - 1];
      var last := assets[|assets| - 1];
      var t := BuildQueries(prefix, env);
      assert BuildQueries(assets, env) == AddAsset(t, last, env);
      BuildQueriesOrderLength(prefix, env);
      FirstSeenKept(assets, env);
      if !FirstWithHash(assets, |assets| - 1, env) {
        var j :| 0 <= j < |assets| - 1 && env.hash(assets[j]) == env.hash(last);
        assert prefix[j] == assets[j];
        assert env.hash(last) in t.entries;
      }
    }
  }

  /** Insertion order: a hash enters `queries` when its first asset is met,
      so the hash of the first asset carrying it sits at the position given
      by the number of first-with-hash assets before that asset. */
  lemma BuildQueriesOrder(assets: seq<TestAsset>, env: Env)
    ensures forall i | 0 <= i < |assets| && FirstWithHash(assets, i, env) ::
              var t := BuildQueries(assets, env);
              CountFirsts(assets[..i], env) < |t.order| && t.order[CountFirsts(assets[..i], env)] == env.hash(assets[i])
  {
    forall i | 0 <= i < |assets| && FirstWithHash(assets, i, env)
      ensures var t := BuildQueries(assets, env);
              CountFirsts(assets[..i], env) < |t.order| && t.order[CountFirsts(assets[..i], env)] == env.hash(assets[i])
    {
      BuildQueriesOrderAt(assets, env, i);
    }
  }

  /** `BuildQueriesOrder` for one asset, by induction on the list. */
  lemma {:induction false} BuildQueriesOrderAt(assets: seq<TestAsset>, env: Env, i: nat)
    requires i < |assets| && FirstWithHash(assets, i, env)
    ensures CountFirsts(assets[..i], env) < |BuildQueries(assets, env).order|
    ensures BuildQueries(assets, env).order[CountFirsts(assets[..i], env)] == env.hash(assets[i])
    decreases |assets|
  {
    var prefix := assets[..|assets| - 1];
    if i < |assets| - 1 {
      assert prefix[..i] == assets[..i];
      assert prefix[i] == assets[i];
      assert FirstWithHash(prefix, i, env);
      BuildQueriesOrderAt(prefix, env, i);
      BuildQueriesExtends(assets, env);
    } else {
      assert assets[..i] == prefix;
      BuildQueriesOrderLast(assets, env);
    }
  }

  /** Adding an asset only ever appends to the insertion order. */
  lemma BuildQueriesExtends(assets: seq<TestAsset>, env: Env)
    requires |assets| > 0
    ensures BuildQueries(assets[..|assets| - 1], env).order <= BuildQueries(assets, env).order
  {
    var t := BuildQueries(assets[..|assets| - 1], env);
    assert BuildQueries(assets, env) == AddAsset(t, assets[|assets| - 1], env);
  }

  /** The last asset, when first with its hash, appends that hash right
      after the prefix's hashes. */
  lemma BuildQueriesOrderLast(assets: seq<TestAsset>, env: Env)
    requires |assets| > 0 && FirstWithHash(assets, |assets| - 1, env)
    ensures var prefix := assets[..|assets| - 1];
            var order := BuildQueries(assets, env).order;
            CountFirsts(prefix, env) < |order| && order[CountFirsts(prefix, env)] == env.hash(assets[|assets| - 1])
  {
    var prefix := assets[..|assets| - 1];
    var last := assets[|assets| - 1];
    var t := BuildQueries(prefix, env);
    assert BuildQueries(assets, env) == AddAsset(t, last, env);
    BuildQueriesOrderLength(prefix, env);
    FirstSeenKept(assets, env);
    assert env.hash(last) !in t.entries;
  }

  /** An asset that is first with its hash in the whole list is first in any
      prefix holding it, and the last asset, when first, brings a new hash. */
  lemma FirstSeenKept(assets: seq<TestAsset>, env: Env)
    requires |assets| > 0
    ensures forall i | 0 <= i < |assets| - 1 && FirstWithHash(assets, i, env) ::
              FirstWithHash(assets[..|assets| - 1], i, env)
    ensures FirstWithHash(assets, |assets| - 1, env) ==>
              env.hash(assets[|assets| - 1]) !in Hashes(assets[..|assets| - 1], env)
  {
  }

  // ---------------------------------------------------------------------
  // One task: run_query

  /** `infores.split("infores:")[1]`: the agent name the responses are keyed by. */
  function AgentKey(infores: string): (r: Option<string>)
    ensures r.Some? <==> Contains(infores, InforesPrefix)
    ensures r.Some? ==> !Contains(r.value, InforesPrefix)
  {
    SplitSecond(infores, InforesPrefix)
  }

  /** For a CURIE `infores:<name>` the key is `<name>`. */
  lemma {:induction false} AgentKeyOfCurie(name: string)
    requires !Contains(name, InforesPrefix)
    ensures AgentKey(InforesPrefix + name) == Some(name)
  {
    var s := InforesPrefix + name;
    assert OccursAt(s, InforesPrefix, 0);
    var found := FindFrom(s, InforesPrefix, |InforesPrefix|);
    if found.Some? {
      var k := found.value;
      assert s[k..k + |InforesPrefix|] == name[k - |InforesPrefix|..k - |InforesPrefix| + |InforesPrefix|];
      assert OccursAt(name, InforesPrefix, k - |InforesPrefix|);
      assert false;
    }
    assert s[|InforesPrefix|..] == name;
  }

  /** `run_query`: a task sends one POST and records one response keyed by
      the agent name; `status_code` stays 418 and `response` stays `{}` when
      the POST raised, and the body is kept only for a 2xx reply that
      decoded. The task itself raises when the client fails or when
      `infores` has no "infores:" to split on. */
  function RunQuery(h: Hash, infores: string, outcome: PostOutcome): (r: Result<TaskResult, Fault>)
    ensures outcome.ClientRaised? ==> r == Failure(TaskRaised)
    ensures !outcome.ClientRaised? ==>
              && (r.Success? <==> Contains(infores, InforesPrefix))
              && (r.Failure? ==> r.error == IndexError)
    ensures r.Success? ==>
              && r.value.hash == h
              && r.value.pks == map[]
              && |r.value.responses| == 1
              && WellFormed(r.value.responses)
              && r.value.responses[0].0 == AgentKey(infores).value
    ensures r.Success? && outcome.PostRaised? ==>
              r.value.responses[0].1 == AgentResponse(EmptyBody, 418)
    ensures r.Success? && outcome.Replied? ==>
              && r.value.responses[0].1.statusCode == outcome.status
              && (200 <= outcome.status <= 299 && outcome.decoded.Some? ==>
                    r.value.responses[0].1.response == outcome.decoded.value)
              && (!(200 <= outcome.status <= 299) ==> r.value.responses[0].1.response == EmptyBody)
              && (outcome.decoded.None? ==> r.value.responses[0].1.response == EmptyBody)
  {
    if outcome.ClientRaised? then Failure(TaskRaised)
    else
      var statusCode := if outcome.Replied? then outcome.status else UnassignedStatus;
      // `res.raise_for_status()` raises for every status outside 2xx, so the
      // body is only decoded for a successful reply.
      var response :=
        if outcome.Replied? && 200 <= outcome.status <= 299 && outcome.decoded.Some?
        then outcome.decoded.value
        else EmptyBody;
      match AgentKey(infores)
      case None => Failure(IndexError)
      case Some(agent) => Success(TaskResult(h, [(agent, AgentResponse(response, statusCode))], map[]))
  }

  // ---------------------------------------------------------------------
  // Fan-out and fan-in

  /** One task per entry of `queries`, in insertion order; the i-th task's
      POST is the run's POST number `base + i`. */
  function Dispatch(t: QueryTable, url: string, infores: string, env: Env, base: nat)
    : (outs: seq<Result<TaskResult, Fault>>)
    requires Valid(t)
    ensures |outs| == |t.entries|
    ensures forall i | 0 <= i < |outs| && outs[i].Success? :: outs[i].value.hash == t.order[i]
  {
    seq(|t.order|, i requires 0 <= i < |t.order| =>
      RunQuery(t.order[i], infores, env.post(base + i, url, t.entries[t.order[i]].query)))
  }

  /** Merge one task's triple into the entry its hash names: that entry's
      responses take the triple's agents' responses, its pks the triple's
      pks, and nothing else in the table changes. */
  function MergeOne(t: QueryTable, tr: TaskResult): (r: QueryTable)
    requires tr.hash in t.entries
    ensures r.order == t.order && r.entries.Keys == t.entries.Keys
    ensures forall h | h in t.entries && h != tr.hash :: r.entries[h] == t.entries[h]
    ensures var e, e' := t.entries[tr.hash], r.entries[tr.hash];
            && e'.query == e.query
            && e'.pks.Keys == e.pks.Keys + tr.pks.Keys
            && (forall k | k in tr.pks :: e'.pks[k] == tr.pks[k])
            && (forall k | k in e.pks && k !in tr.pks :: e'.pks[k] == e.pks[k])
            && (forall k | k !in KeysOf(tr.responses) :: Get(e'.responses, k) == Get(e.responses, k))
            && (WellFormed(tr.responses) ==>
                  forall k | k in KeysOf(tr.responses) :: Get(e'.responses, k) == Get(tr.responses, k))
    ensures Holds(r.entries[tr.hash], tr.responses, tr.pks)
  {
    var e := t.entries[tr.hash];
    t.(entries := t.entries[tr.hash := e.(responses := Update(e.responses, tr.responses),
                                          pks := e.pks + tr.pks)])
  }

  ghost predicate Named(outs: seq<Result<TaskResult, Fault>>, h: Hash)
  {
    exists i | 0 <= i < |outs| :: outs[i].Success? && outs[i].value.hash == h
  }

  /** The loop over `asyncio.gather(..., return_exceptions=True)`. Unpacking
      an exception object (TypeError) or an unknown hash (KeyError) ends the
      loop inside the `try`; merges already done are kept and the table is
      still returned. */
  function MergeResults(t: QueryTable, outs: seq<Result<TaskResult, Fault>>): (r: QueryTable)
    ensures r.order == t.order && r.entries.Keys == t.entries.Keys
    ensures Valid(t) ==> Valid(r)
    ensures forall h | h in t.entries :: r.entries[h].query == t.entries[h].query
    ensures forall h | h in t.entries && !Named(outs, h) :: r.entries[h] == t.entries[h]
    decreases |outs|
  {
    if |outs| == 0 then t
    else match outs[0]
      case Failure(_) => t
      case Success(tr) =>
        if tr.hash !in t.entries then t
        else
          var r := MergeResults(MergeOne(t, tr), outs[1..]);
          assert forall h | Named(outs[1..], h) :: Named(outs, h) by {
            forall h | Named(outs[1..], h) ensures Named(outs, h) {
              var i :| 0 <= i < |outs[1..]| && outs[1..][i].Success? && outs[1..][i].value.hash == h;
              assert outs[i + 1] == outs[1..][i];
            }
          }
          assert Named(outs, tr.hash) by { assert outs[0].Success?; }
          r
  }

  /** Every agent of `responses` and every key of `pks` is present in the
      entry `e`. */
  ghost predicate Holds(e: QueryEntry, responses: Dict<AgentResponse>, pks: map<string, string>)
  {
    && pks.Keys <= e.pks.Keys
    && forall k | k in KeysOf(responses) :: k in KeysOf(e.responses)
  }

  /** The number of triples, from the first task, that `MergeResults`
      merges: it stops at the first task that raised or names a hash the
      table does not hold. */
  function MergedPrefix(keys: set<Hash>, outs: seq<Result<TaskResult, Fault>>): (n: nat)
    ensures n <= |outs|
    ensures forall i | 0 <= i < n :: outs[i].Success? && outs[i].value.hash in keys
    ensures n < |outs| ==> outs[n].Failure? || outs[n].value.hash !in keys
  {
    if |outs| == 0 || outs[0].Failure? || outs[0].value.hash !in keys then 0
    else 1 + MergedPrefix(keys, outs[1..])
  }

  /** Merges done before the loop stops are kept: no entry loses an agent
      or a pk it held, and every triple merged before the first failure
      has its agents and pks in its entry at the end. */
  lemma {:induction false} MergeResultsKeeps(t: QueryTable, outs: seq<Result<TaskResult, Fault>>)
    ensures var r := MergeResults(t, outs);
            && (forall h | h in t.entries :: Holds(r.entries[h], t.entries[h].responses, t.entries[h].pks))
            && (forall i | 0 <= i < MergedPrefix(t.entries.Keys, outs) ::
                  Holds(r.entries[outs[i].value.hash], outs[i].value.responses, outs[i].value.pks))
    decreases |outs|
  {
    MergeResultsGrows(t, outs);
    if |outs| > 0 && outs[0].Success? && outs[0].value.hash in t.entries {
      var tr := outs[0].value;
      var t' := MergeOne(t, tr);
      var r := MergeResults(t, outs);
      assert r == MergeResults(t', outs[1..]);
      MergeResultsKeeps(t', outs[1..]);
      assert MergedPrefix(t.entries.Keys, outs) == 1 + MergedPrefix(t'.entries.Keys, outs[1..]);
      forall i | 0 <= i < MergedPrefix(t.entries.Keys, outs)
        ensures Holds(r.entries[outs[i].value.hash], outs[i].value.responses, outs[i].value.pks)
      {
        if i > 0 {
          assert outs[1..][i - 1] == outs[i];
        } else {
          HoldsTrans(tr.responses, tr.pks, t'.entries[tr.hash], r.entries[tr.hash]);
        }
      }
    }
  }

  /** The merge loop never removes an agent or a pk from an entry. */
  lemma {:induction false} MergeResultsGrows(t: QueryTable, outs: seq<Result<TaskResult, Fault>>)
    ensures var r := MergeResults(t, outs);
            forall h | h in t.entries :: Holds(r.entries[h], t.entries[h].responses, t.entries[h].pks)
    decreases |outs|
  {
    if |outs| > 0 && outs[0].Success? && outs[0].value.hash in t.entries {
      var t' := MergeOne(t, outs[0].value);
      var r := MergeResults(t, outs);
      assert r == MergeResults(t', outs[1..]);
      MergeResultsGrows(t', outs[1..]);
      forall h | h in t.entries
        ensures Holds(r.entries[h], t.entries[h].responses, t.entries[h].pks)
      {
        HoldsTrans(t.entries[h].responses, t.entries[h].pks, t'.entries[h], r.entries[h]);
      }
    }
  }

  /** What an entry holds, a later entry holding all of it holds too. */
  lemma HoldsTrans(responses: Dict<AgentResponse>, pks: map<string, string>, e': QueryEntry, e'': QueryEntry)
    requires Holds(e', responses, pks) && Holds(e'', e'.responses, e'.pks)
    ensures Holds(e'', responses, pks)
  {
  }

  /** The number of tasks, from the first, that returned normally. */
  function LeadingSuccesses(outs: seq<Result<TaskResult, Fault>>): (n: nat)
    ensures n <= |outs|
    ensures forall i | 0 <= i < n :: outs[i].Success?
    ensures n < |outs| ==> outs[n].Failure?
  {
    if |outs| == 0 || outs[0].Failure? then 0 else 1 + LeadingSuccesses(outs[1..])
  }

  /** Each returned triple is merged into its own, still empty, entry only:
      up to the first task that raised, entry `hs[i]` ends up holding exactly
      task i's responses and pks; from there on entries stay as they were. */
  lemma {:induction false} MergeIntoOwnEntries(t: QueryTable, outs: seq<Result<TaskResult, Fault>>, hs: seq<Hash>)
    requires OwnEntries(t, outs, hs)
    ensures forall i | 0 <= i < |hs| ::
              var e := MergeResults(t, outs).entries[hs[i]];
              if i < LeadingSuccesses(outs)
              then e.responses == outs[i].value.responses && e.pks == outs[i].value.pks
              else e == t.entries[hs[i]]
    decreases |outs|
  {
    if |outs| > 0 && outs[0].Success? {
      var t' := MergeOne(t, outs[0].value);
      MergeStep(t, outs, hs);
      MergeIntoOwnEntries(t', outs[1..], hs[1..]);
      forall i | 0 <= i < |hs|
        ensures var e := MergeResults(t, outs).entries[hs[i]];
                if i < LeadingSuccesses(outs)
                then e.responses == outs[i].value.responses && e.pks == outs[i].value.pks
                else e == t.entries[hs[i]]
      {
        if i > 0 {
          assert hs[1..][i - 1] == hs[i] && outs[1..][i - 1] == outs[i];
        }
      }
    }
  }

  /** Task i returned the triple for hash `hs[i]`, a distinct key whose entry
      is still empty. */
  ghost predicate OwnEntries(t: QueryTable, outs: seq<Result<TaskResult, Fault>>, hs: seq<Hash>)
  {
    && |hs| == |outs| && Distinct(hs)
    && (forall i | 0 <= i < |hs| ::
          && hs[i] in t.entries
          && t.entries[hs[i]].responses == []
          && t.entries[hs[i]].pks == map[])
    && (forall i | 0 <= i < |outs| && outs[i].Success? ::
          outs[i].value.hash == hs[i] && WellFormed(outs[i].value.responses))
  }

  /** Merging the first triple fills its own entry and leaves the rest of
      the table as `OwnEntries` needs it for the remaining tasks. */
  lemma MergeStep(t: QueryTable, outs: seq<Result<TaskResult, Fault>>, hs: seq<Hash>)
    requires OwnEntries(t, outs, hs) && |outs| > 0 && outs[0].Success?
    ensures var t' := MergeOne(t, outs[0].value);
            && OwnEntries(t', outs[1..], hs[1..])
            && MergeResults(t, outs) == MergeResults(t', outs[1..])
            && t'.entries[hs[0]].responses == outs[0].value.responses
            && t'.entries[hs[0]].pks == outs[0].value.pks
            && MergeResults(t', outs[1..]).entries[hs[0]] == t'.entries[hs[0]]
            && LeadingSuccesses(outs) == 1 + LeadingSuccesses(outs[1..])
  {
    var tr := outs[0].value;
    var t' := MergeOne(t, tr);
    UpdateDisjoint([], tr.responses);
    assert [] + tr.responses == tr.responses;
    assert map[] + tr.pks == tr.pks;
    forall i | 0 <= i < |hs[1..]|
      ensures hs[1..][i] in t'.entries && t'.entries[hs[1..][i]] == t.entries[hs[1..][i]]
    {
      assert hs[1..][i] == hs[i + 1] != hs[0];
    }
    forall i | 0 <= i < |outs[1..]| && outs[1..][i].Success?
      ensures outs[1..][i].value.hash == hs[1..][i] && WellFormed(outs[1..][i].value.responses)
    {
      assert outs[1..][i] == outs[i + 1];
    }
    assert !Named(outs[1..], hs[0]) by {
      forall j | 0 <= j < |outs[1..]| && outs[1..][j].Success?
        ensures outs[1..][j].value.hash != hs[0]
      {
        assert outs[1..][j] == outs[j + 1] && hs[j + 1] != hs[0];
      }
    }
  }

  /** The tasks of a freshly built table satisfy `OwnEntries`. */
  lemma DispatchFillsOwnEntries(t: QueryTable, url: string, infores: string, env: Env, base: nat)
    requires Valid(t)
    requires forall h | h in t.entries :: t.entries[h].responses == [] && t.entries[h].pks == map[]
    ensures OwnEntries(t, Dispatch(t, url, infores, env, base), t.order)
  {
  }

  /** `run_queries`: merge the fresh normalisations into the cache, rewrite
      every asset's input id, build one query per distinct hash, send one
      task per query and merge the results. Only the normalisation lookup
      can make it raise; every task failure is absorbed. */
  function RunQueries(cache: map<string, string>, posts: nat, test: TestCase, url: string,
                      infores: string, env: Env): (r: Result<Dispatched, Fault>)
    ensures var merged := MergeNormalizations(cache, env.normalize(test));
            && (r.Success? <==> forall a | a in test.assets :: a.inputId in merged)
            && (r.Failure? ==> r.error.KeyError? && r.error.key !in merged)
            && (r.Success? ==> r.value.cache == merged)
            && (r.Success? ==> r.value.assets == NormalizeAssets(test.assets, merged).value)
    ensures r.Success? ==>
              && Valid(r.value.queries)
              && r.value.queries.entries.Keys == Hashes(r.value.assets, env)
              && r.value.posts == posts + |r.value.queries.entries|
  {
    var merged := MergeNormalizations(cache, env.normalize(test));
    var assets :- NormalizeAssets(test.assets, merged);
    var built := BuildQueries(assets, env);
    var outs := Dispatch(built, url, infores, env, posts);
    Success(Dispatched(merged, assets, MergeResults(built, outs), posts + |outs|))
  }

  /** After `run_queries`, the entry of the i-th distinct hash holds exactly
      the responses of the i-th task when every task before it returned
      normally, and is still empty otherwise. */
  lemma RunQueriesOwnResponses(cache: map<string, string>, posts: nat, test: TestCase, url: string,
                               infores: string, env: Env)
    requires RunQueries(cache, posts, test, url, infores, env).Success?
    ensures var d := RunQueries(cache, posts, test, url, infores, env).value;
            var outs := Dispatch(BuildQueries(d.assets, env), url, infores, env, posts);
            forall i | 0 <= i < |d.queries.order| ::
              d.queries.entries[d.queries.order[i]].responses ==
                (if i < LeadingSuccesses(outs) then outs[i].value.responses else [])
  {
    var d := RunQueries(cache, posts, test, url, infores, env).value;
    var built := BuildQueries(d.assets, env);
    DispatchFillsOwnEntries(built, url, infores, env, posts);
    MergeIntoOwnEntries(built, Dispatch(built, url, infores, env, posts), built.order);
  }
}

=== FILE: result_collector.dfy ===
/** `ResultCollector` (result_collector.py): a statistics table
    agent x query type x result type -> count, seeded with zeros, and a CSV
    report that only ever grows by one row per collected asset. */
module ResultCollector {
  import opened Wrappers
  import opened OrderedDict
  import opened Text
  import opened Types

  /** `self.agents` */
  const Agents: seq<string> := ["biothings-explorer"]

  /** `self.query_types`: the expectation categories the table counts. */
  const QueryTypes: seq<string> := ["TopAnswer", "Acceptable", "BadButForgivable", "NeverShow"]

  /** `self.result_types`: tag -> result type, in insertion order. */
  const ResultTypes: Dict<string> :=
    [("PASSED", "PASSED"), ("FAILED", "FAILED"), ("No results", "No results"), ("-", "Test Error")]

  /** The result type of any tag `self.result_types` does not know. */
  const TestError := "Test Error"

  /** The fixed leading columns of the CSV report. */
  const LeadingColumns: seq<string> := ["name", "TestCase", "TestAsset"]

  /** The CSV header line: the leading columns and the agents. */
  const Header := "name,TestCase,TestAsset,biothings-explorer\n"

  type Stats = map<string, map<string, map<string, nat>>>

  /** The collector's state; `errors` counts the errors it logged. */
  datatype Collector = Collector(stats: Stats, csv: string, errors: nat)

  /** `self.result_types.values()` */
  function ResultTypeValues(): seq<string>
  {
    seq(|ResultTypes|, i requires 0 <= i < |ResultTypes| => ResultTypes[i].1)
  }

  predicate HasCell(s: Stats, a: string, q: string, rt: string)
  {
    a in s && q in s[a] && rt in s[a][q]
  }

  function Count(s: Stats, a: string, q: string, rt: string): nat
    requires HasCell(s, a, q, rt)
  {
    s[a][q][rt]
  }

  /** Exactly the cells agent x query type x result type exist. */
  ghost predicate Seeded(s: Stats)
  {
    && s.Keys == (set a | a in Agents)
    && forall a | a in s ::
         && s[a].Keys == (set q | q in QueryTypes)
         && forall q | q in s[a] :: s[a][q].Keys == (set rt | rt in ResultTypeValues())
  }

  ghost predicate AllZero(s: Stats)
  {
    forall a, q, rt | HasCell(s, a, q, rt) :: Count(s, a, q, rt) == 0
  }

  /** Both tables have the same cells (possibly different counts). */
  ghost predicate SameShape(s: Stats, s': Stats)
  {
    && s.Keys == s'.Keys
    && forall a | a in s ::
         && s[a].Keys == s'[a].Keys
         && forall q | q in s[a] :: s[a][q].Keys == s'[a][q].Keys
  }

  lemma SeededShape(s: Stats, s': Stats)
    requires Seeded(s) && SameShape(s, s')
    ensures Seeded(s')
  {
  }

  /** `ResultCollector.__init__`: every (agent, query type, result type)
      cell present and zero, and the CSV holding only its header. */
  method NewCollector() returns (c: Collector)
    ensures Seeded(c.stats) && AllZero(c.stats)
    ensures c.errors == 0
    ensures c.csv == Header
  {
    var stats: Stats := map[];
    for i := 0 to |Agents|
      invariant stats.Keys == set a | a in Agents[..i]
      invariant forall a | a in stats :: SeededRow(stats[a])
    {
      var row := SeedRow();
      assert Agents[..i + 1] == Agents[..i] + [Agents[i]];
      stats := stats[Agents[i] := row];
    }
    assert Agents[..|Agents|] == Agents;
    HeaderLine();
    c := Collector(stats, Join(LeadingColumns + Agents, ",") + "\n", 0);
  }

  /** `self.stats[agent]` after the query-type loop. */
  method SeedRow() returns (row: map<string, map<string, nat>>)
    ensures SeededRow(row)
  {
    row := map[];
    for j := 0 to |QueryTypes|
      invariant row.Keys == set q | q in QueryTypes[..j]
      invariant forall q | q in row :: SeededCell(row[q])
    {
      var cell := SeedCell();
      assert QueryTypes[..j + 1] == QueryTypes[..j] + [QueryTypes[j]];
      row := row[QueryTypes[j] := cell];
    }
    assert QueryTypes[..|QueryTypes|] == QueryTypes;
  }

  /** `self.stats[agent][query_type]` after the result-type loop. */
  method SeedCell() returns (cell: map<string, nat>)
    ensures SeededCell(cell)
  {
    cell := map[];
    for k := 0 to |ResultTypes|
      invariant cell.Keys == set rt | rt in ResultTypeValues()[..k]
      invariant forall rt | rt in cell :: cell[rt] == 0
    {
      assert ResultTypeValues()[..k + 1] == ResultTypeValues()[..k] + [ResultTypes[k].1];
      cell := cell[ResultTypes[k].1 := 0];
    }
    assert ResultTypeValues()[..|ResultTypes|] == ResultTypeValues();
  }

  /** `",".join(self.columns)` is the fixed header. */
  lemma HeaderLine()
    ensures Join(LeadingColumns + Agents, ",") + "\n" == Header
  {
    var x := Join(["biothings-explorer"], ",");
    var y := Join(["TestAsset", "biothings-explorer"], ",");
    assert ["TestAsset", "biothings-explorer"][1..] == ["biothings-explorer"];
    assert y == "TestAsset" + "," + x;
    var z := Join(["TestCase", "TestAsset", "biothings-explorer"], ",");
    assert ["TestCase", "TestAsset", "biothings-explorer"][1..] == ["TestAsset", "biothings-explorer"];
    assert z == "TestCase" + "," + y;
    var w := Join(["name", "TestCase", "TestAsset", "biothings-explorer"], ",");
    assert ["name", "TestCase", "TestAsset", "biothings-explorer"][1..] == ["TestCase", "TestAsset", "biothings-explorer"];
    assert w == "name" + "," + z;
    assert LeadingColumns + Agents == ["name", "TestCase", "TestAsset", "biothings-explorer"];
    HeaderLiteral();
  }

  lemma HeaderLiteral()
    ensures "name" + "," + ("TestCase" + "," + ("TestAsset" + "," + "biothings-explorer")) + "\n" == Header
  {
  }

  /** One agent's part of a seeded table. */
  ghost predicate SeededRow(row: map<string, map<string, nat>>)
  {
    && row.Keys == (set q | q in QueryTypes)
    && forall q | q in row :: SeededCell(row[q])
  }

  ghost predicate SeededCell(cell: map<string, nat>)
  {
    && cell.Keys == (set rt | rt in ResultTypeValues())
    && forall rt | rt in cell :: cell[rt] == 0
  }

  /** `self.result_types.get(tag, "Test Error")`: the three known tags map to
      themselves and every other tag, "-" included, to "Test Error", so the
      result type is always one the table was seeded with. */
  function ResultTypeOf(tag: string): (rt: string)
    ensures rt in ResultTypeValues()
    ensures tag == "PASSED" || tag == "FAILED" || tag == "No results" ==> rt == tag
    ensures tag != "PASSED" && tag != "FAILED" && tag != "No results" ==> rt == TestError
  {
    assert ResultTypeValues() == ["PASSED", "FAILED", "No results", "Test Error"];
    match Get(ResultTypes, tag)
    case Some(v) => v
    case None => TestError
  }

  /** `self.stats[a][q][rt] += 1` */
  function Bump(s: Stats, a: string, q: string, rt: string): (r: Stats)
    requires HasCell(s, a, q, rt)
    ensures SameShape(s, r)
    ensures forall a', q', rt' | HasCell(s, a', q', rt') ::
              Count(r, a', q', rt') == Count(s, a', q', rt') + (if a' == a && q' == q && rt' == rt then 1 else 0)
  {
    s[a := s[a][q := s[a][q][rt := s[a][q][rt] + 1]]]
  }

  /** How many of `agents` have an entry in `report`. */
  function CountIn(agents: seq<string>, report: map<string, AgentReport>): nat
  {
    if |agents| == 0 then 0
    else (if agents[0] in report then 1 else 0) + CountIn(agents[1..], report)
  }

  /** The statistics half of `collect_result`, over the agents in order:
      an agent present in the report moves at most the one cell
      (agent, query type, its result type); when that cell is missing an
      error is logged instead. */
  function CollectStats(s: Stats, agents: seq<string>, q: string,
                        report: map<string, AgentReport>, tag: AgentReport -> string)
    : (r: (Stats, nat))
    requires Distinct(agents)
    requires forall a | a in agents && a in report :: a in s
    ensures SameShape(s, r.0)
    ensures (forall a | a in agents && a in report :: q !in s[a]) ==> r.0 == s && r.1 == CountIn(agents, report)
    ensures r.1 == 0 <==> forall a | a in agents && a in report :: HasCell(s, a, q, ResultTypeOf(tag(report[a])))
    decreases |agents|
  {
    if |agents| == 0 then (s, 0)
    else
      var a := agents[0];
      assert forall b | b in agents[1..] :: b in agents && b != a;
      if a !in report then CollectStats(s, agents[1..], q, report, tag)
      else
        var rt := ResultTypeOf(tag(report[a]));
        if HasCell(s, a, q, rt) then
          var s' := Bump(s, a, q, rt);
          CollectStats(s', agents[1..], q, report, tag)
        else
          var rest := CollectStats(s, agents[1..], q, report, tag);
          (rest.0, rest.1 + 1)
  }

  /** Each agent of the list present in the report adds one to exactly its
      own cell for the query type and its result type; every other cell
      keeps its count. */
  lemma {:induction false} CollectStatsCounts(s: Stats, agents: seq<string>, q: string,
                                              report: map<string, AgentReport>, tag: AgentReport -> string)
    requires Distinct(agents)
    requires forall a | a in agents && a in report :: a in s
    ensures var r := CollectStats(s, agents, q, report, tag).0;
            forall a, q', rt | HasCell(s, a, q', rt) ::
              Count(r, a, q', rt) == Count(s, a, q', rt) +
                (if a in agents && a in report && q' == q && rt == ResultTypeOf(tag(report[a])) then 1 else 0)
    decreases |agents|
  {
    if |agents| > 0 {
      var a0, rest := agents[0], agents[1..];
      var r := CollectStats(s, agents, q, report, tag).0;
      var mid := if a0 in report && HasCell(s, a0, q, ResultTypeOf(tag(report[a0])))
                 then Bump(s, a0, q, ResultTypeOf(tag(report[a0]))) else s;
      assert r == CollectStats(mid, rest, q, report, tag).0;
      assert forall b | b in rest && b in report :: b in mid by {
        assert forall b | b in rest :: b in agents;
      }
      assert Distinct(rest);
      CollectStatsCounts(mid, rest, q, report, tag);
      forall a, q', rt | HasCell(s, a, q', rt)
        ensures Count(r, a, q', rt) == Count(s, a, q', rt) +
                  (if a in agents && a in report && q' == q && rt == ResultTypeOf(tag(report[a])) then 1 else 0)
      {
        assert HasCell(mid, a, q', rt);
        assert a in agents <==> a == a0 || a in rest;
        assert a == a0 ==> a !in rest;
      }
    }
  }

  /** `",".join(get_tag(report[agent]) for agent in agents if agent in report)` */
  function Tags(agents: seq<string>, report: map<string, AgentReport>, tag: AgentReport -> string)
    : (ts: seq<string>)
    ensures |ts| == CountIn(agents, report)
    ensures forall a | a in agents && a in report :: tag(report[a]) in ts
    ensures forall t | t in ts :: exists a | a in agents && a in report :: t == tag(report[a])
  {
    if |agents| == 0 then []
    else if agents[0] in report then [tag(report[agents[0]])] + Tags(agents[1..], report, tag)
    else Tags(agents[1..], report, tag)
  }

  /** The CSV line `collect_result` appends for one asset: it starts with
      the asset's name, the test id and the asset id, ends with a newline,
      and is a single line whenever its fields hold no newline. */
  function CsvRow(testId: string, asset: TestAsset, report: map<string, AgentReport>,
                  tag: AgentReport -> string): (line: string)
    ensures asset.name + "," + testId + "," + asset.id + "," <= line
    ensures line == asset.name + "," + testId + "," + asset.id + ","
                    + (if Agents[0] in report then tag(report[Agents[0]]) else "") + "\n"
    ensures |line| > 0 && line[|line| - 1] == '\n'
    ensures '\n' !in asset.name + testId + asset.id
            && (forall a | a in Agents && a in report :: '\n' !in tag(report[a])) ==>
              '\n' !in line[..|line| - 1]
  {
    asset.name + "," + testId + "," + asset.id + "," + Join(Tags(Agents, report, tag), ",") + "\n"
  }

  /** `collect_result`: for every agent in the report, exactly the cell
      (agent, expected output, result type of its tag) moves up by one when
      it exists, and otherwise an error is logged; no cell is created; the
      CSV gains exactly one line. */
  function CollectResult(c: Collector, testId: string, asset: TestAsset,
                         report: map<string, AgentReport>, tag: AgentReport -> string)
    : (r: Collector)
    requires forall a | a in Agents && a in report :: a in c.stats
    ensures SameShape(c.stats, r.stats)
    ensures forall a, q, rt | HasCell(c.stats, a, q, rt) ::
              Count(r.stats, a, q, rt) == Count(c.stats, a, q, rt) +
                (if a in Agents && a in report && q == asset.expectedOutput
                    && rt == ResultTypeOf(tag(report[a])) then 1 else 0)
    ensures Seeded(c.stats) && asset.expectedOutput in QueryTypes ==> r.errors == c.errors
    ensures Seeded(c.stats) && asset.expectedOutput !in QueryTypes ==>
              r.stats == c.stats && r.errors == c.errors + CountIn(Agents, report)
    ensures r.csv == c.csv + CsvRow(testId, asset, report, tag)
  {
    var (stats, logged) := CollectStats(c.stats, Agents, asset.expectedOutput, report, tag);
    CollectStatsCounts(c.stats, Agents, asset.expectedOutput, report, tag);
    Collector(stats, c.csv + CsvRow(testId, asset, report, tag), c.errors + logged)
  }
}

=== FILE: run.dfy ===
/** `run_tests` (run.py): for every test case, dispatch its queries, route
    every supported asset's responses to a verdict, bump one run-level
    counter per asset and hand the verdicts to the collector. */
module Run {
  import opened Wrappers
  import opened OrderedDict
  import opened Text
  import opened Types
  import opened QueryRunner
  import opened ResultCollector

  /** The agent whose status decides the run-level counter of an asset. */
  const Bte := Agents[0]

  const AcceptanceTest := "AcceptanceTest"
  const QuantitativeTest := "QuantitativeTest"

  /** `full_report`: run-level counters keyed by status. */
  type FullReport = map<Status, nat>

  const InitialReport: FullReport := map[PASSED := 0, FAILED := 0, SKIPPED := 0]

  /** Everything `run_tests` carries from one test case to the next: the
      counters, the runner's normalisation cache, the collector and the
      number of POSTs sent so far. */
  datatype RunState = RunState(
    report: FullReport,
    cache: map<string, string>,
    collector: Collector,
    posts: nat)

  ghost predicate Invariant(st: RunState)
  {
    st.report.Keys == {PASSED, FAILED, SKIPPED} && Seeded(st.collector.stats)
  }

  function Total(report: FullReport): nat
    requires report.Keys == {PASSED, FAILED, SKIPPED}
  {
    report[PASSED] + report[FAILED] + report[SKIPPED]
  }

  /** `full_report[status] += 1`: exactly one counter grows, by one. */
  function Increment(report: FullReport, s: Status): (r: FullReport)
    requires report.Keys == {PASSED, FAILED, SKIPPED}
    ensures r.Keys == report.Keys
    ensures forall t | t in report :: r[t] == report[t] + (if t == s then 1 else 0)
    ensures Total(r) == Total(report) + 1
  {
    assert s in report by { assert s.PASSED? || s.FAILED? || s.SKIPPED?; }
    report[s := report[s] + 1]
  }

  // ---------------------------------------------------------------------
  // One agent's verdict

  /** A Python value, to model `==` between values of different types. */
  datatype PyValue = PyInt(i: int) | PyStr(s: string)

  /** The report for a response whose status code is above 299. The code
      compares the integer status with the string "598", which is never
      equal, so the "Timed out" message is never produced. */
  function StatusFailure(code: int): (r: AgentReport)
    requires code > 299
    ensures r.status == Some(FAILED)
    ensures r.message == Some("Status code: " + IntToString(code))
    ensures r.message != Some("Timed out")
  {
    var message :=
      if PyInt(code) == PyStr("598") then "Timed out"
      else "Status code: " + IntToString(code);
    AgentReport(Some(FAILED), Some(message))
  }

  /** The message names the status code: it is "Status code: " followed by
      the code's decimal digits. */
  lemma StatusMessageNamesCode(code: int)
    requires code > 299
    ensures var m := StatusFailure(code).message.value;
            && |m| > 13 && m[..13] == "Status code: "
            && IsDigits(m[13..]) && ParseNat(m[13..]) == code
  {
    var m := StatusFailure(code).message.value;
    assert m[13..] == NatToString(code);
    ParseNatToString(code);
  }

  /** `body["message"]["results"]`: subscripting something that is not a
      dict raises TypeError, and a dict without the key raises KeyError
      naming that key. */
  function ResultsOf(body: ResponseBody): (r: Result<seq<Answer>, Fault>)
    ensures r.Success? <==> body.WithMessage? && body.message.Results?
    ensures r.Success? ==> r.value == body.message.answers
    ensures r == Failure(KeyError("message")) <==> body == NoMessage
    ensures r == Failure(KeyError("results")) <==> body == WithMessage(NoResults)
    ensures r == Failure(TypeError) <==> body == BodyNotObject || body == WithMessage(MessageNotObject)
  {
    match body
    case BodyNotObject => Failure(TypeError)
    case NoMessage => Failure(KeyError("message"))
    case WithMessage(message) =>
      match message
      case MessageNotObject => Failure(TypeError)
      case NoResults => Failure(KeyError("results"))
      case Results(answers) => Success(answers)
  }

  /** One iteration of the loop over `test_query["responses"]`: a failed
      status yields a FAILED report without consulting the classifier;
      otherwise the arguments of `pass_fail_analysis` are evaluated left to
      right, so the results lookup raises first and the lookup of
      `normalized_curies[asset.output_id]` second, and the classifier fills
      the agent's freshly emptied report. */
  function AgentVerdict(result: map<string, AgentReport>, agent: string, response: AgentResponse,
                        asset: TestAsset, cache: map<string, string>, env: Env)
    : (r: Result<AgentReport, Fault>)
    ensures response.statusCode > 299 ==> r == Success(StatusFailure(response.statusCode))
    ensures response.statusCode <= 299 ==>
              (r.Success? <==> ResultsOf(response.response).Success? && asset.outputId in cache)
    ensures response.statusCode <= 299 && ResultsOf(response.response).Failure? ==>
              r == Failure(ResultsOf(response.response).error)
    ensures response.statusCode <= 299 && ResultsOf(response.response).Success? && asset.outputId !in cache ==>
              r == Failure(KeyError(asset.outputId))
    ensures response.statusCode <= 299 && r.Success? ==>
              r.value == env.classify(result[agent := EmptyReport], agent, ResultsOf(response.response).value,
                                      cache[asset.outputId], asset.expectedOutput)
  {
    if response.statusCode > 299 then Success(StatusFailure(response.statusCode))
    else
      match ResultsOf(response.response)
      case Failure(fault) => Failure(fault)
      case Success(answers) =>
        if asset.outputId !in cache then Failure(KeyError(asset.outputId))
        else Success(env.classify(result[agent := EmptyReport], agent, answers,
                                  cache[asset.outputId], asset.expectedOutput))
  }

  /** The verdict for this response can be formed without an exception. */
  predicate Routable(response: AgentResponse, asset: TestAsset, cache: map<string, string>)
  {
    response.statusCode > 299 || (ResultsOf(response.response).Success? && asset.outputId in cache)
  }

  /** `report["result"]` after the loop over one query's responses: every
      agent with a response gets a report, every other entry is kept, and
      an agent whose status code is above 299 gets the FAILED report. */
  function AgentVerdicts(responses: Dict<AgentResponse>, result: map<string, AgentReport>,
                         asset: TestAsset, cache: map<string, string>, env: Env)
    : (r: Result<map<string, AgentReport>, Fault>)
    ensures r.Success? ==> r.value.Keys == result.Keys + (set k | k in KeysOf(responses))
    ensures r.Success? ==>
              forall k | k in result && k !in KeysOf(responses) :: r.value[k] == result[k]
    ensures r.Success? <==> forall i | 0 <= i < |responses| :: Routable(responses[i].1, asset, cache)
    decreases |responses|
  {
    if |responses| == 0 then Success(result)
    else
      var agent := responses[0].0;
      match AgentVerdict(result, agent, responses[0].1, asset, cache, env)
      case Failure(fault) => Failure(fault)
      case Success(verdict) => AgentVerdicts(responses[1..], result[agent := verdict], asset, cache, env)
  }

  /** An agent whose last response has a status above 299 ends up with the
      FAILED report naming that status, whatever the classifier says about
      the other agents. */
  lemma {:induction false} AgentVerdictsFailedStatus(responses: Dict<AgentResponse>, result: map<string, AgentReport>,
                                                     asset: TestAsset, cache: map<string, string>, env: Env)
    requires AgentVerdicts(responses, result, asset, cache, env).Success?
    ensures var r := AgentVerdicts(responses, result, asset, cache, env).value;
            forall i | 0 <= i < |responses| && responses[i].1.statusCode > 299
                                           && responses[i].0 !in KeysOf(responses[i + 1..]) ::
              r[responses[i].0] == StatusFailure(responses[i].1.statusCode)
    decreases |responses|
  {
    if |responses| > 0 {
      var agent := responses[0].0;
      var verdict := AgentVerdict(result, agent, responses[0].1, asset, cache, env).value;
      var rest := responses[1..];
      var r := AgentVerdicts(responses, result, asset, cache, env).value;
      assert r == AgentVerdicts(rest, result[agent := verdict], asset, cache, env).value;
      AgentVerdictsFailedStatus(rest, result[agent := verdict], asset, cache, env);
      forall i | 0 <= i < |responses| && responses[i].1.statusCode > 299
                                     && responses[i].0 !in KeysOf(responses[i + 1..])
        ensures r[responses[i].0] == StatusFailure(responses[i].1.statusCode)
      {
        if i > 0 {
          assert rest[i - 1] == responses[i];
          assert rest[i - 1 + 1..] == responses[i + 1..];
        } else {
          assert KeysOf(rest) == KeysOf(responses[1..]);
          assert agent !in KeysOf(rest);
        }
      }
    }
  }

  /** A query entry as `run_queries` builds it holds one response. When that
      response's status is at most 299 and the verdicts form, its agent's
      report is the classifier's, given the emptied entry, the answers, the
      normalised output id and the expected output. */
  lemma AgentVerdictsClassified(responses: Dict<AgentResponse>, result: map<string, AgentReport>,
                                asset: TestAsset, cache: map<string, string>, env: Env)
    ensures var r := AgentVerdicts(responses, result, asset, cache, env);
            |responses| == 1 && r.Success? && responses[0].1.statusCode <= 299 ==>
              r.value[responses[0].0] ==
                env.classify(result[responses[0].0 := EmptyReport], responses[0].0,
                             ResultsOf(responses[0].1.response).value,
                             cache[asset.outputId], asset.expectedOutput)
  {
    if |responses| == 1 && AgentVerdicts(responses, result, asset, cache, env).Success? {
      var agent := responses[0].0;
      var v := AgentVerdict(result, agent, responses[0].1, asset, cache, env);
      assert v.Success?;
      assert AgentVerdicts(responses, result, asset, cache, env)
          == AgentVerdicts(responses[1..], result[agent := v.value], asset, cache, env);
      assert |responses[1..]| == 0;
    }
  }

  // ---------------------------------------------------------------------
  // One asset

  /** `report["result"].get("biothings-explorer", {}).get("status", "SKIPPED")` */
  function RunStatusOf(result: map<string, AgentReport>): Status
  {
    if Bte in result && result[Bte].status.Some? then result[Bte].status.value else SKIPPED
  }

  /** The body of the asset loop of an acceptance test. An asset whose
      expected output the collector does not count, or whose hash has no
      entry, changes nothing; any other asset moves exactly one run-level
      counter by one and is handed to `collect_result` exactly once. */
  function RouteAsset(st: RunState, testId: string, asset: TestAsset, queries: QueryTable, env: Env)
    : (r: Result<RunState, Fault>)
    requires Invariant(st)
    ensures r.Success? ==> Invariant(r.value) && r.value.cache == st.cache && r.value.posts == st.posts
    ensures r.Success? ==> st.collector.csv <= r.value.collector.csv
    ensures asset.expectedOutput !in QueryTypes ==> r == Success(st)
    ensures env.hash(asset) !in queries.entries ==> r == Success(st)
    ensures asset.expectedOutput in QueryTypes && env.hash(asset) in queries.entries ==>
              var verdicts := AgentVerdicts(queries.entries[env.hash(asset)].responses, map[], asset, st.cache, env);
              && (r.Success? <==> verdicts.Success?)
              && (r.Success? ==> Total(r.value.report) == Total(st.report) + 1)
  {
    if asset.expectedOutput !in QueryTypes then Success(st)
    else
      var h := env.hash(asset);
      if h !in queries.entries then Success(st)
      else RecordVerdicts(st, testId, asset, AgentVerdicts(queries.entries[h].responses, map[], asset, st.cache, env), env)
  }

  /** A supported asset with an entry moves the counter of the Biothings
      Explorer verdict's status by one and is handed to the collector with
      the verdicts formed from its entry's responses. */
  lemma RouteAssetRecords(st: RunState, testId: string, asset: TestAsset, queries: QueryTable, env: Env)
    requires Invariant(st)
    requires asset.expectedOutput in QueryTypes && env.hash(asset) in queries.entries
    requires RouteAsset(st, testId, asset, queries, env).Success?
    ensures var verdicts := AgentVerdicts(queries.entries[env.hash(asset)].responses, map[], asset, st.cache, env);
            var r := RouteAsset(st, testId, asset, queries, env).value;
            var v := verdicts.value;
            && verdicts.Success?
            && (Bte in v && v[Bte].status.Some? ==> r.report == Increment(st.report, v[Bte].status.value))
            && (Bte !in v || v[Bte].status.None? ==> r.report == Increment(st.report, SKIPPED))
            && r.collector == CollectResult(st.collector, testId, asset, verdicts.value, env.tag)
  {
    var verdicts := AgentVerdicts(queries.entries[env.hash(asset)].responses, map[], asset, st.cache, env);
    assert RouteAsset(st, testId, asset, queries, env) == RecordVerdicts(st, testId, asset, verdicts, env);
    assert verdicts.Success?;
    assert RecordVerdicts(st, testId, asset, verdicts, env) == Success(Record(st, testId, asset, verdicts.value, env));
  }

  /** A KeyError or TypeError while forming the verdicts escapes `run_tests`
      and ends the run; otherwise the verdicts are recorded. */
  function RecordVerdicts(st: RunState, testId: string, asset: TestAsset,
                          verdicts: Result<map<string, AgentReport>, Fault>, env: Env)
    : (r: Result<RunState, Fault>)
    requires Invariant(st)
    ensures r.Success? <==> verdicts.Success?
    ensures r.Success? ==> Invariant(r.value) && r.value.cache == st.cache && r.value.posts == st.posts
    ensures r.Success? ==> st.collector.csv <= r.value.collector.csv
    ensures r.Success? ==>
              var v := verdicts.value;
              && Total(r.value.report) == Total(st.report) + 1
              && (Bte in v && v[Bte].status.Some? ==> r.value.report == Increment(st.report, v[Bte].status.value))
              && (Bte !in v || v[Bte].status.None? ==> r.value.report == Increment(st.report, SKIPPED))
              && r.value.collector == CollectResult(st.collector, testId, asset, verdicts.value, env.tag)
  {
    match verdicts
    case Failure(fault) => Failure(fault)
    case Success(v) => Success(Record(st, testId, asset, v, env))
  }

  /** `full_report[status] += 1` followed by `collector.collect_result(...)`. */
  function Record(st: RunState, testId: string, asset: TestAsset, verdicts: map<string, AgentReport>, env: Env)
    : (r: RunState)
    requires Invariant(st)
    ensures Invariant(r) && r.cache == st.cache && r.posts == st.posts
    ensures st.collector.csv <= r.collector.csv
    ensures Total(r.report) == Total(st.report) + 1
    ensures Bte in verdicts && verdicts[Bte].status.Some? ==>
              r.report == Increment(st.report, verdicts[Bte].status.value)
    ensures Bte !in verdicts || verdicts[Bte].status.None? ==> r.report == Increment(st.report, SKIPPED)
    ensures r.collector == CollectResult(st.collector, testId, asset, verdicts, env.tag)
  {
    var s := RunStatusOf(verdicts);
    var collector := CollectResult(st.collector, testId, asset, verdicts, env.tag);
    SeededShape(st.collector.stats, collector.stats);
    st.(report := Increment(st.report, s), collector := collector)
  }

  /** How many assets have an expected output the collector counts. */
  function SupportedCount(assets: seq<TestAsset>): nat
  {
    if |assets| == 0 then 0
    else (if assets[0].expectedOutput in QueryTypes then 1 else 0) + SupportedCount(assets[1..])
  }

  /** The asset loop of an acceptance test. When every asset's hash has an
      entry, the counters grow by exactly the number of supported assets. */
  function RouteAssets(st: RunState, testId: string, assets: seq<TestAsset>, queries: QueryTable, env: Env)
    : (r: Result<RunState, Fault>)
    requires Invariant(st)
    ensures r.Success? ==> Invariant(r.value) && r.value.cache == st.cache && r.value.posts == st.posts
    ensures r.Success? ==> st.collector.csv <= r.value.collector.csv
    ensures r.Success? && (forall a | a in assets :: env.hash(a) in queries.entries) ==>
              Total(r.value.report) == Total(st.report) + SupportedCount(assets)
    decreases |assets|
  {
    if |assets| == 0 then Success(st)
    else
      var st' :- RouteAsset(st, testId, assets[0], queries, env);
      assert forall a | a in assets[1..] :: a in assets;
      RouteAssets(st', testId, assets[1..], queries, env)
  }

  // ---------------------------------------------------------------------
  // One test case

  /** `not test.test_assets or not test.test_case_objective`: a test runs
      only with at least one asset and a non-empty objective; an empty
      objective string is falsy like a missing one. */
  predicate Skipped(test: TestCase): (b: bool)
    ensures !b ==> |test.assets| > 0 && test.objective.Some? && |test.objective.value| > 0
    ensures test.objective == Some("") ==> b
    ensures |test.assets| > 0 && test.objective.Some? && test.objective.value != "" ==> !b
  {
    |test.assets| == 0 || test.objective.None? || test.objective == Some("")
  }

  /** One iteration of the test loop. A test missing assets or an objective
      changes nothing. Otherwise its queries are dispatched whatever its
      objective and its assets' expected outputs; an acceptance test routes
      its assets, a quantitative test changes no counter, and any other
      objective adds one to FAILED. */
  function RunTest(st: RunState, test: TestCase, url: string, infores: string, env: Env)
    : (r: Result<RunState, Fault>)
    requires Invariant(st)
    ensures r.Success? ==> Invariant(r.value) && st.collector.csv <= r.value.collector.csv
    ensures Skipped(test) ==> r == Success(st)
    ensures !Skipped(test) ==>
              var d := RunQueries(st.cache, st.posts, test, url, infores, env);
              && (d.Failure? ==> r == Failure(d.error))
              && (r.Success? ==>
                    && d.Success?
                    && r.value.cache == d.value.cache
                    && r.value.posts == st.posts + |Hashes(d.value.assets, env)|)
    ensures r.Success? ==> Total(r.value.report) == Total(st.report) + Weight(test)
  {
    if Skipped(test) then Success(st)
    else
      var dispatched := RunQueries(st.cache, st.posts, test, url, infores, env);
      if dispatched.Success? then
        SupportedCountNormalized(test.assets, dispatched.value.cache);
        AfterQueries(st, test, dispatched, env)
      else
        AfterQueries(st, test, dispatched, env)
  }

  /** The rest of a test once `run_queries` has returned or raised: a fault
      ends the test, otherwise the state takes the dispatch's cache and POST
      counter and the objective decides the counters. */
  function AfterQueries(st: RunState, test: TestCase, dispatched: Result<Dispatched, Fault>, env: Env)
    : (r: Result<RunState, Fault>)
    requires Invariant(st)
    requires dispatched.Success? ==>
               && dispatched.value.queries.entries.Keys == Hashes(dispatched.value.assets, env)
               && SupportedCount(dispatched.value.assets) == SupportedCount(test.assets)
    ensures r.Success? ==> Invariant(r.value) && st.collector.csv <= r.value.collector.csv
    ensures dispatched.Failure? ==> r == Failure(dispatched.error)
    ensures r.Success? ==>
              && dispatched.Success?
              && r.value.cache == dispatched.value.cache
              && r.value.posts == dispatched.value.posts
    ensures test.objective == Some(AcceptanceTest) && r.Success? ==>
              Total(r.value.report) == Total(st.report) + SupportedCount(test.assets)
    ensures test.objective == Some(QuantitativeTest) ==>
              r.Success? ==> r.value.report == st.report && r.value.collector == st.collector
    ensures test.objective != Some(AcceptanceTest) && test.objective != Some(QuantitativeTest) ==>
              r.Success? ==>
                && r.value.report == Increment(st.report, FAILED)
                && r.value.collector == st.collector
  {
    match dispatched
    case Failure(fault) => Failure(fault)
    case Success(d) => Judge(st.(cache := d.cache, posts := d.posts), test, d, env)
  }

  /** What happens after `run_queries` returned, by objective. */
  function Judge(st: RunState, test: TestCase, d: Dispatched, env: Env): (r: Result<RunState, Fault>)
    requires Invariant(st)
    requires d.queries.entries.Keys == Hashes(d.assets, env)
    requires SupportedCount(d.assets) == SupportedCount(test.assets)
    ensures r.Success? ==> Invariant(r.value) && st.collector.csv <= r.value.collector.csv
    ensures r.Success? ==> r.value.cache == st.cache && r.value.posts == st.posts
    ensures test.objective == Some(AcceptanceTest) && r.Success? ==>
              Total(r.value.report) == Total(st.report) + SupportedCount(test.assets)
    ensures test.objective == Some(QuantitativeTest) ==> r == Success(st)
    ensures test.objective != Some(AcceptanceTest) && test.objective != Some(QuantitativeTest) ==>
              r == Success(st.(report := Increment(st.report, FAILED)))
  {
    if test.objective == Some(AcceptanceTest) then
      EveryAssetRetrieved(d, env);
      RouteAssets(st, test.id, d.assets, d.queries, env)
    else if test.objective == Some(QuantitativeTest) then Success(st)
    else Success(st.(report := Increment(st.report, FAILED)))
  }

  /** After dispatch, every asset of the test finds its own entry, so the
      "Unable to retrieve response" branch is never taken. */
  lemma EveryAssetRetrieved(d: Dispatched, env: Env)
    requires d.queries.entries.Keys == Hashes(d.assets, env)
    ensures forall a | a in d.assets :: env.hash(a) in d.queries.entries
  {
  }

  /** Normalising input identifiers does not change which assets are supported. */
  lemma {:induction false} SupportedCountNormalized(assets: seq<TestAsset>, cache: map<string, string>)
    requires NormalizeAssets(assets, cache).Success?
    ensures SupportedCount(NormalizeAssets(assets, cache).value) == SupportedCount(assets)
    decreases |assets|
  {
    if |assets| > 0 {
      var n := NormalizeAssets(assets, cache).value;
      assert forall a | a in assets[1..] :: a in assets;
      SupportedCountNormalized(assets[1..], cache);
      assert n[1..] == NormalizeAssets(assets[1..], cache).value;
    }
  }

  // ---------------------------------------------------------------------
  // The whole run

  /** What a test contributes to the run-level counters when it is processed
      without a fault. */
  function Weight(test: TestCase): nat
  {
    if Skipped(test) then 0
    else if test.objective == Some(AcceptanceTest) then SupportedCount(test.assets)
    else if test.objective == Some(QuantitativeTest) then 0
    else 1
  }

  function TotalWeight(tests: seq<TestCase>): nat
  {
    if |tests| == 0 then 0 else TotalWeight(tests[..|tests| - 1]) + Weight(tests[|tests| - 1])
  }

  /** `run_tests`: the counters start at exactly PASSED, FAILED, SKIPPED = 0
      and together count every supported asset of every acceptance test plus
      one per test of an unsupported objective; the table stays exactly the
      seeded one; the CSV keeps its header and only grows. A KeyError or
      TypeError from a lookup ends the run. */
  method RunTests(tests: seq<TestCase>, url: string, infores: string, env: Env)
    returns (r: Result<RunState, Fault>)
    ensures r.Success? ==> Invariant(r.value)
    ensures r.Success? ==> Total(r.value.report) == TotalWeight(tests)
    ensures r.Success? ==> Header <= r.value.collector.csv
    ensures |tests| == 0 ==> r.Success? && r.value.report == InitialReport && AllZero(r.value.collector.stats)
  {
    var collector := NewCollector();
    var st := RunState(InitialReport, map[], collector, 0);
    for i := 0 to |tests|
      invariant Invariant(st)
      invariant Total(st.report) == TotalWeight(tests[..i])
      invariant Header <= st.collector.csv
      invariant i == 0 ==> st.report == InitialReport && AllZero(st.collector.stats)
    {
      var step := RunTest(st, tests[i], url, infores, env);
      if step.Failure? {
        return Failure(step.error);
      }
      assert tests[..i + 1][..i] == tests[..i];
      st := step.value;
    }
    assert tests[..|tests|] == tests;
    return Success(st);
  }
}

=== FILE: text.dfy ===
/** The few Python string operations the harness relies on:
    `sep.join(parts)`, `str(n)` for an integer, and `s.split(sep)[1]`. */
module Text {
  import opened Wrappers

  /** `sep.join(parts)`: no parts join to "", the first part leads, a single
      part stands alone, and every character comes from a part or from the
      separator. */
  function Join(parts: seq<string>, sep: string): (r: string)
    ensures |parts| == 0 ==> r == ""
    ensures |parts| > 0 ==> parts[0] <= r
    ensures |parts| == 1 ==> r == parts[0]
    ensures forall c | c in r :: c in sep || exists p | p in parts :: c in p
  {
    if |parts| == 0 then ""
    else if |parts| == 1 then parts[0]
    else parts[0] + sep + Join(parts[1..], sep)
  }

  /** `sep` occurs in `s` starting at index `i`. */
  predicate OccursAt(s: string, sep: string, i: nat)
  {
    i + |sep| <= |s| && s[i..i + |sep|] == sep
  }

  /** Python's `sep in s`. */
  ghost predicate Contains(s: string, sep: string)
  {
    exists i: nat :: OccursAt(s, sep, i)
  }

  /** `s.find(sep, from)`: the first occurrence at or after `from`. */
  function FindFrom(s: string, sep: string, from: nat): (r: Option<nat>)
    ensures r.Some? ==> from <= r.value && OccursAt(s, sep, r.value)
    ensures r.Some? ==> forall p: nat :: from <= p < r.value ==> !OccursAt(s, sep, p)
    ensures r.None? ==> forall p: nat :: from <= p ==> !OccursAt(s, sep, p)
    decreases |s| - from
  {
    if |s| < from + |sep| then None
    else if OccursAt(s, sep, from) then Some(from)
    else FindFrom(s, sep, from + 1)
  }

  /** `s.split(sep)[1]`: the piece between the first and the second
      occurrence of `sep` (or the end of `s`); `None` where Python raises
      IndexError because `sep` does not occur at all. */
  function SplitSecond(s: string, sep: string): (r: Option<string>)
    requires |sep| > 0
    ensures r.Some? <==> Contains(s, sep)
    ensures r.Some? ==> !Contains(r.value, sep)
    ensures r.Some? ==>
              var start := FindFrom(s, sep, 0).value + |sep|;
              && start + |r.value| <= |s|
              && r.value == s[start..start + |r.value|]
              && (start + |r.value| == |s| || OccursAt(s, sep, start + |r.value|))
              && (forall p: nat :: start <= p < start + |r.value| ==> !OccursAt(s, sep, p))
  {
    match FindFrom(s, sep, 0)
    case None => None
    case Some(i) =>
      var start := i + |sep|;
      match FindFrom(s, sep, start)
      case None =>
        NoOccurrenceInSuffix(s, sep, start, |s|);
        assert s[start..] == s[start..|s|];
        Some(s[start..])
      case Some(k) =>
        NoOccurrenceInSuffix(s, sep, start, k);
        Some(s[start..k])
  }

  /** A piece of `s` in which `sep` never starts contains no `sep`. */
  lemma NoOccurrenceInSuffix(s: string, sep: string, start: nat, end: nat)
    requires |sep| > 0 && start <= end <= |s|
    requires forall p: nat :: start <= p < end ==> !OccursAt(s, sep, p)
    ensures !Contains(s[start..end], sep)
  {
    forall i: nat
      ensures OccursAt(s[start..end], sep, i) ==> OccursAt(s, sep, start + i) && start + i < end
    {
      OccurrenceInPiece(s, sep, start, end, i);
    }
  }

  /** An occurrence inside `s[start..end]` is an occurrence in `s`. */
  lemma OccurrenceInPiece(s: string, sep: string, start: nat, end: nat, i: nat)
    requires |sep| > 0 && start <= end <= |s|
    ensures OccursAt(s[start..end], sep, i) ==> OccursAt(s, sep, start + i) && start + i < end
  {
    var piece := s[start..end];
    if OccursAt(piece, sep, i) {
      forall k | 0 <= k < |sep|
        ensures s[start + i..start + i + |sep|][k] == sep[k]
      {
        assert sep[k] == piece[i..i + |sep|][k] == piece[i + k] == s[start + i + k];
      }
    }
  }

  /** `str(n)` for a non-negative integer. */
  function NatToString(n: nat): (r: string)
    ensures |r| > 0 && IsDigits(r)
    ensures n > 0 ==> r[0] != '0'
  {
    if n < 10 then [Digit(n)] else NatToString(n / 10) + [Digit(n % 10)]
  }

  /** `str(i)` for any integer. */
  function IntToString(i: int): string
  {
    if i < 0 then "-" + NatToString(-i) else NatToString(i)
  }

  function Digit(d: nat): (c: char)
    requires d < 10
  {
    (d + '0' as int) as char
  }

  predicate IsDigits(s: string)
  {
    forall i | 0 <= i < |s| :: '0' <= s[i] <= '9'
  }

  /** `int(s)` for a string of decimal digits; the inverse of `NatToString`. */
  function ParseNat(s: string): nat
    requires |s| > 0 && IsDigits(s)
  {
    if |s| == 1 then s[0] as int - '0' as int
    else 10 * ParseNat(s[..|s| - 1]) + (s[|s| - 1] as int - '0' as int)
  }

  lemma {:induction false} ParseNatToString(n: nat)
    ensures ParseNat(NatToString(n)) == n
  {
    if n >= 10 {
      var s := NatToString(n);
      assert s[..|s| - 1] == NatToString(n / 10);
      ParseNatToString(n / 10);
    }
  }
}

=== FILE: types.dfy ===
/** The records the harness passes around, and the collaborators whose code
    is not part of this model. */
module Types {
  import opened Wrappers

  /** The value `hash_test_asset` returns. */
  type Hash = int

  /** A TRAPI query message, kept abstract as its serialised form. */
  type Query = string

  /** One entry of a TRAPI response's `message.results` list. */
  type Answer = string

  /** A test asset: one input identifier and the output it is expected to
      relate to. `expectedOutput` is the expectation category
      (TopAnswer, Acceptable, BadButForgivable, NeverShow, OverlyGeneric, ...). */
  datatype TestAsset = TestAsset(
    id: string,
    name: string,
    inputId: string,
    outputId: string,
    expectedOutput: string)

  /** A test case. A missing objective is `None`; a missing asset list is the
      empty sequence (both are falsy in Python). */
  datatype TestCase = TestCase(
    id: string,
    objective: Option<string>,
    assets: seq<TestAsset>)

  /** The closed set of run-level statuses an agent report can carry. */
  datatype Status = PASSED | FAILED | SKIPPED

  /** A decoded JSON body, as far as `body["message"]["results"]` looks into it. */
  datatype ResponseBody =
    | BodyNotObject                       // null, a list, a string, ...: subscripting it raises TypeError
    | NoMessage                           // an object without "message", such as the default `{}`
    | WithMessage(message: MessageField)

  /** The value under "message". */
  datatype MessageField =
    | MessageNotObject                    // null, a list, ...: subscripting it raises TypeError
    | NoResults                           // an object without "results"
    | Results(answers: seq<Answer>)

  /** `response = {}`, the body `run_query` records when it has no decoded reply. */
  const EmptyBody := NoMessage

  /** What `run_query` records for one agent: `{"response": ..., "status_code": ...}`. */
  datatype AgentResponse = AgentResponse(response: ResponseBody, statusCode: int)

  /** One agent's entry of `report["result"]`: a dict that may hold a
      `status` and a `message`. */
  datatype AgentReport = AgentReport(status: Option<Status>, message: Option<string>)

  const EmptyReport := AgentReport(None, None)

  /** What happened to one HTTP POST of a query.
      - `PostRaised`: `client.post` raised (timeout, connection error) before a
        status code was known.
      - `Replied(status, decoded)`: the service answered with `status`;
        `decoded` is `res.json()`, or `None` when decoding raised.
      - `ClientRaised`: the HTTP client itself raised outside the guarded
        block, so the whole task ends with an exception. */
  datatype PostOutcome =
    | PostRaised
    | Replied(status: int, decoded: Option<ResponseBody>)
    | ClientRaised

  /** Python exceptions that can end an operation of the harness. */
  datatype Fault =
    | KeyError(key: string)   // a dict lookup of a missing key
    | TypeError               // subscripting a value that is not a dict
    | IndexError              // `infores.split("infores:")[1]` without "infores:"
    | TaskRaised              // an exception escaping a dispatch task

  /** The collaborators the harness calls but whose code is not modelled:
      `normalize_curies`, `hash_test_asset`, `generate_query`, the network
      (`post(n, url, query)` is the outcome of the n-th POST of the run),
      `pass_fail_analysis` and `get_tag`. */
  datatype Env = Env(
    normalize: TestCase -> map<string, string>,
    hash: TestAsset -> Hash,
    generate: TestAsset -> Query,
    post: (nat, string, Query) -> PostOutcome,
    classify: (map<string, AgentReport>, string, seq<Answer>, string, string) -> AgentReport,
    tag: AgentReport -> string)
}

=== FILE: wrappers.dfy ===
/** Option and Result, the failure-compatible wrappers used throughout the model.
    A Python exception that escapes a function is modelled as `Failure(fault)`. */
module Wrappers {

  datatype Option<+T> = None | Some(value: T)

  datatype Result<+T, +E> = Success(value: T) | Failure(error: E) {

    predicate IsFailure() {
      Failure?
    }

    function PropagateFailure<U>(): Result<U, E>
      requires Failure?
    {
      Failure(error)
    }

    function Extract(): T
      requires Success?
    {
      value
    }
  }
}
